=== FILE: README.md ===
# SolarEdge Web client — a Dafny model

This project models the sequential logic of the SolarEdge Web client (`src/solaredge_web/solaredge.py`).
The client logs in to the monitoring portal, fetches the site's equipment layout, and fetches energy
playback data. Four pieces of logic are modelled and proved:

- **Session and cache state machine** (`client.dfy`, module `Client`). The client record holds the
  equipment cache and the time of the last login. `Login`, `GetEquipment` and `GetEnergyData` are
  state transitions. The clock, the cookie jar and the outcome of each HTTP request are inputs. Each
  call returns the new record, a result or an error, and the list of requests it sent, so statements
  like "no network request" become statements about that list.
- **Equipment-tree flattening** (`layout.dfy`, module `Layout`). `ExtractNested` and `ExtractAll` mirror
  the recursive `extract_nested_data` and its loops. A pre-order listing of the tree is the reference
  definition. The lemmas relate the dictionary to that listing: its ids, last writer wins, and one entry
  per node when ids are unique.
- **Response normalisation** (`normalize.dfy`, module `Normalize`, on top of `text.dfy`, module `Text`).
  `Text.Replace` is Python's `str.replace`. `NormalizeText` is the fixed chain of replacements that turns
  the playback response into JSON. Proved about it:
  - no `'` is left;
  - none of the six bare keys is left;
  - the chain is idempotent, and it fixes exactly the texts that are already normalised;
  - apart from quote characters, the text is unchanged;
  - each of the six keys written bare anywhere in the text comes out quoted, and the text on either side
    is normalised on its own, so `fieldDataArray:` is not damaged by the `fieldData:` link;
  - the links also match inside longer words: after a normalised prefix, a bare key that ends with one
    of the six is quoted from that key on, so `monkey:` becomes `mon"key":`;
  - any other bare key stays bare.
- **Energy samples and cookie lookup** (`energy.dfy`, module `Energy`, and `cookies.dfy`, module
  `Cookies`). `ExtractSamples` produces one sample per `reportersData` item, in order. A sample's
  values flatten the entries of all its groups, and later entries win. `FindCookie` returns the first
  portal cookie with the given name.

`lastwins.dfy` (module `LastWins`) holds the dictionary semantics both the layout and the samples rely
on. `AssignAll` is a loop of `d[k] = v` assignments. `Build` is the same dictionary described from the
end. `BuildSpec` says which keys the dictionary holds and that the last assignment to a key wins.
`wrappers.dfy` holds `Option` and `Result`.

Points of the code's behaviour that the model keeps on purpose:

- A login that is not skipped clears the equipment cache before the request is sent
  (`src/solaredge_web/solaredge.py:72`). So a *failed* login also leaves the cache empty.
- Missing CSRF tokens and failed requests raise `aiohttp.ClientError`, and malformed bodies raise
  `KeyError`, `TypeError` (a body of the wrong shape, such as a `children` list of strings reaching
  `node["data"]` at line 115) or a JSON error. A request that runs past the session's `ClientTimeout`
  (`src/solaredge_web/solaredge.py:58`) raises `asyncio.TimeoutError` instead. The
  `except aiohttp.ClientError` blocks (lines 83, 107, 154) do not log it, but it propagates the
  same way and leaves the same state. The model sorts these into the `Client.Error` constructors by
  where they arise: a failed or timed-out request is `LoginFailed` or `FetchFailed`, an unreadable SSO max-age
  is `MaxAgeUnreadable`, a missing token is `MissingCsrfToken`, and a body that does not decode is `MalformedResponse`. It does not tell
  the exception types apart, and the `ValueError`s of `strptime` and `float()` are not modelled (see
  "## Left out").
- The chain quotes only its six keys, but `str.replace` matches them anywhere, also at the end of a
  longer word: `monkey:` becomes `mon"key":` (line 166, `Normalize.NormalizeTextQuotesMonkey`). A bare
  key that does not end with one of the six, such as the group label `g1:`, stays unquoted
  (`Normalize.NormalizeTextLeavesOtherKeys`).
- The login time stored after a successful login is a second clock reading, taken once the POST has
  returned (`src/solaredge_web/solaredge.py:86`), not the reading the skip test used (line 67). The
  model takes it from the login reply (`Client.LoginAnswer.finishedAt`).

## Model

| member | source | states |
|---|---|---|
| Client.TimeUnitCodeRoundTrip | src/solaredge_web/solaredge.py:19-31 | DAY has code 4 and WEEK has code 5. Looking a unit up by its code gives the unit back, and only 4 and 5 name a unit |
| Client.NewClient | src/solaredge_web/solaredge.py:59-60 | a new client has an empty equipment cache and a last-login time of zero |
| Client.Login | src/solaredge_web/solaredge.py:62-86 | when the SSO cookie still covers the time since the last login, nothing changes and nothing is sent. When its max-age cannot be read, the call fails and nothing changes. Otherwise exactly one login request is sent and the cache ends empty. Then either the login time becomes the clock reading taken after the POST and the reply's jar is in force, or the call fails and the login time is unchanged |
| Client.LoginSkippedIffFresh | src/solaredge_web/solaredge.py:64-71 | login leaves the client unchanged and sends nothing exactly when the SSO cookie is present and `now - lastLogin < maxAge - 600`. It sends nothing exactly when that holds or the max-age is unreadable |
| Client.LoginClearsCache | src/solaredge_web/solaredge.py:72-86 | once the login request is sent, the cache is empty whether or not the login succeeds, and the call succeeds exactly when the reply does |
| Client.LoginAgainWithinWindow | src/solaredge_web/solaredge.py:64-86 | after a login that went to the server and succeeded, a second login less than the new SSO cookie's max-age minus 600 seconds after the first one finished sends nothing and changes nothing |
| Client.GetEquipment | src/solaredge_web/solaredge.py:88-126 | a login failure is passed on. A non-empty cache after login is returned as it is, with no layout request. Otherwise exactly one layout request is added. A well-formed layout yields its flattened dictionary as both the result and the new cache. A failed reply gives `FetchFailed` and a malformed one `MalformedResponse`, and both leave the client as the login left it |
| Client.GetEquipmentTwice | src/solaredge_web/solaredge.py:94-101 | starting from an empty cache, a successful non-empty fetch followed by a second call while the session is fresh sends no request the second time and returns the same dictionary |
| Client.CsrfToken | src/solaredge_web/solaredge.py:137-140 | a token is available exactly when the portal's CSRF-TOKEN cookie exists with a non-empty value, and the token is that value |
| Client.GetEnergyData | src/solaredge_web/solaredge.py:128-184 | the client record is whatever the login made it. A login failure is passed on. Without a usable CSRF token the call fails before any playback request. Otherwise exactly one playback request is added, carrying the unit's code and the token, and the call succeeds exactly when the reply arrives and its normalised body decodes; the result is then the samples extracted from it. A failed reply gives `FetchFailed` and an undecodable body `MalformedResponse` |
| Client.DefaultRequestIsWeekly | src/solaredge_web/solaredge.py:128-151 | called without a unit, the energy request asks for weekly data: its playback request carries code 5, the code of `WEEK` |
| Client.EnergyRequestCarriesToken | src/solaredge_web/solaredge.py:137-151 | a playback request is only ever sent after a successful login. It carries the requested unit's code and the non-empty value of the portal's CSRF-TOKEN cookie |
| Cookies.FindCookie | src/solaredge_web/solaredge.py:186-191 | returns the first jar cookie whose domain is `monitoring.solaredge.com` and whose name matches, and returns none exactly when no cookie matches |
| Layout.ExtractAllIsPreOrder | src/solaredge_web/solaredge.py:112-122 | the recursive walk performs the assignments `d[id] = data` of all nodes in pre-order: a node before its children, siblings left to right |
| Layout.ExtractNested | src/solaredge_web/solaredge.py:112-118 | `extract_nested_data` keeps every id already in the dictionary and records the node's own id |
| Layout.ExtractAll | src/solaredge_web/solaredge.py:117-118 | the loop over a list of nodes keeps every id already in the dictionary and records the id of every node of the list |
| Layout.Flatten | src/solaredge_web/solaredge.py:112-122 | the flattened dictionary's ids are exactly the ids of all nodes under `logicalTree.children`, at any depth |
| Layout.FlattenLastWins | src/solaredge_web/solaredge.py:112-122 | each id maps to the data of the last node in pre-order that has that id |
| Layout.FlattenSize | src/solaredge_web/solaredge.py:112-122 | when all ids are unique, the dictionary has one entry per node |
| Layout.PreOrderReachesDescendants | src/solaredge_web/solaredge.py:117-118 | the walk reaches every depth: each listed node's data, and all of its descendants' data, are visited |
| LastWins.BuildSpec | src/solaredge_web/solaredge.py:116 | assigning key/value pairs in order gives a dictionary with exactly their keys, where each key holds the value of its last pair |
| LastWins.AssignAllIsBuild | src/solaredge_web/solaredge.py:116-118 | a loop of assignments on top of a dictionary equals that dictionary overridden by the built one |
| Text.Replace | src/solaredge_web/solaredge.py:160-168 | `str.replace` of a pattern that does not occur returns the text unchanged |
| Text.ReplaceSplit | src/solaredge_web/solaredge.py:160-168 | `str.replace` on `x + y` is `str.replace` on `x` followed by `str.replace` on `y`, whenever no occurrence of the pattern starts in `x` and ends in `y` |
| Text.ReplaceRemovesChar | src/solaredge_web/solaredge.py:161 | replacing `'` by `"` leaves no `'` |
| Normalize.NoBareAfterQuoting | src/solaredge_web/solaredge.py:162-167 | after a key link `w2:` → `"w2":`, no bare `w2:` remains, and no bare `w1:` that was absent before reappears |
| Normalize.QuoteKeys | src/solaredge_web/solaredge.py:162-167 | the key links change nothing but `"` characters: with `"` erased, output and input are equal. They never introduce a `'` |
| Normalize.NormalizeText | src/solaredge_web/solaredge.py:160-168 | the normalised text contains no `'` and none of `timeUnit:`, `fieldData:`, `fieldDataArray:`, `reportersData:`, `key:`, `value:` |
| Normalize.NormalizeTextFixedPoint | src/solaredge_web/solaredge.py:160-168 | the chain leaves a text unchanged exactly when the text has no `'` and no bare key of the six |
| Normalize.NormalizeTextIdempotent | src/solaredge_web/solaredge.py:160-168 | normalising the normalised text gives the same text |
| Normalize.NormalizeTextOnlyQuotes | src/solaredge_web/solaredge.py:160-168 | with all `'` and `"` erased, the normalised text equals the original text: the chain changes nothing but quote characters |
| Normalize.NormalizeTextQuotesEachKey | src/solaredge_web/solaredge.py:162-167 | for any texts `a` and `b` and each of the six keys `k`, normalising `a + "k:" + b` gives the normalised `a`, then `"k":`, then the normalised `b`. In particular `fieldDataArray:` becomes `"fieldDataArray":` and is not cut by the `fieldData:` link |
| Normalize.NormalizeTextLeavesOtherKeys | src/solaredge_web/solaredge.py:162-167 | a bare key that does not end with one of the six keys (a group name, say) is left unquoted |
| Normalize.NormalizeTextQuotesKeyInWord | src/solaredge_web/solaredge.py:162-167 | after a prefix that is already normalised, each of the six keys written bare is quoted from where it starts, even when it ends a longer word; the prefix is kept and the rest is normalised on its own |
| Normalize.NormalizeTextQuotesMonkey | src/solaredge_web/solaredge.py:166 | `monkey:` followed by any text becomes `mon"key":` followed by that text normalised |
| Energy.ExtractSamples | src/solaredge_web/solaredge.py:170-180 | one sample per `reportersData` item, in the payload's order. Each sample is stamped with its item's date, and its values are the last-writer-wins dictionary of that item's entries, taken group by group |
| Energy.Entries | src/solaredge_web/solaredge.py:174-176 | an entry is among the flattened entries exactly when some group of the interval holds it |
| Energy.Sample | src/solaredge_web/solaredge.py:171-178 | a sample starts at its interval's date. An id is in its values exactly when some entry of some group of the interval carries it, and the values are the last-writer-wins dictionary of the entries |
| Energy.SampleLastWins | src/solaredge_web/solaredge.py:173-177 | each id maps to the value of the last entry with that id, taking the groups in order and each group's entries in order |
| Energy.ExtractSamplesLastWins | src/solaredge_web/solaredge.py:170-180 | in the list the client returns, sample `i` maps each id to the value of the last entry with that id in interval `i` |
| Energy.SampleSize | src/solaredge_web/solaredge.py:173-177 | with distinct ids across a sample's entries, the sample has one value per entry |

## Left out

- The HTTP transport (aiohttp session, POST/GET, `raise_for_status`, timeouts, async suspension) is not modelled. Each request's outcome is an input `Reply`: `Failed` covers a connection error, a status of 400 or more, or a timeout (`asyncio.TimeoutError`, which the `except aiohttp.ClientError` blocks do not catch but which propagates with the same effect on the client), and `Ok` carries the body.
- URLs, headers other than the CSRF token, form fields, credentials, the site id and logging are not modelled. They do not affect the logic. For the same reason the client record holds only the cache and the login time.
- `time.time()` is read twice by a login: once for the skip test, which is the integer parameter `now`, and once after the POST has returned, which arrives with the login reply. Both are whole seconds. Fractional seconds are not modelled.
- The cookie jar is an input. The jar in force after a performed login (what the server's Set-Cookie headers leave) is part of the login reply. How aiohttp stores and orders cookies is not modelled.
- `json.loads` and the key lookups that follow it are the parameter `decode` of `GetEnergyData`. For the layout, the reply carries either the top-level children or `None` for a malformed body.
- A layout tree that is malformed part-way through is not modelled. In the code it leaves the cache partly filled before the `KeyError`. Trees are well-formed by construction.
- Energy.ExtractSamples: a sample's start time is the date text itself, because `datetime.strptime` is not modelled. Its energy values are the value texts, because `float()` is not modelled. So the `ValueError` that `strptime` or `float()` raises on a date or value it cannot parse (lines 172 and 174) is not modelled either, and `GetEnergyData` reports success on such a body. Entry ids arrive as integers, so the `int()` conversion and its `ValueError` are not modelled.
- Text.Replace: it is defined only for non-empty patterns. Python's behaviour for an empty pattern is not modelled, since the code never uses one.
- Client.Login: an unreadable SSO `max-age` (which makes `int()` raise in the code) is modelled as the `MaxAgeUnreadable` error. The exact text forms that `int()` accepts are not modelled.
- `async_get_equipment` returns the cache dictionary itself, and its values are the decoded JSON objects, so a caller that changes the returned dictionary or one of its records changes the client's cache. The model returns values, not shared objects, so this aliasing is not modelled.
- Concurrent calls on one client are not modelled. The code does not make them safe.
- `src/solaredge_web/__init__.py` only re-exports names, so there is no logic in it to model.

=== FILE: client.dfy ===
/** The client: a record of the equipment cache and the time of the last
    login, and the three operations `login`, `get_equipment` and
    `get_energy_data` as state transitions. The clock, the cookie jar and
    the outcome of every HTTP request are inputs; each call returns the new
    client record, its result or error, and the requests it sent. */
module Client {
  import opened Wrappers
  import opened Cookies
  import opened Layout
  import opened Energy
  import opened Normalize

  /** The time units the playback endpoint is asked for. */
  datatype TimeUnit = Day | Week {
    /** The numeric code sent in the `timeUnit` form field. */
    function Code(): int {
      match this
      case Day => 4
      case Week => 5
    }
  }

  /** `TimeUnit(code)`: the unit with that code, if there is one. */
  function TimeUnitOf(code: int): Option<TimeUnit> {
    if code == 4 then Some(Day) else if code == 5 then Some(Week) else None
  }

  /** Codes and units correspond one to one. */
  lemma TimeUnitCodeRoundTrip(u: TimeUnit, code: int)
    ensures TimeUnitOf(u.Code()) == Some(u)
    ensures TimeUnitOf(code).Some? ==> TimeUnitOf(code).value.Code() == code
    ensures TimeUnitOf(code).None? <==> code != 4 && code != 5
  {
  }

  /** The time unit `async_get_energy_data` uses when the caller gives none. */
  const DefaultTimeUnit: TimeUnit := Week

  const SsoCookieName: string := "SolarEdge_SSO-1.4"
  const CsrfCookieName: string := "CSRF-TOKEN"

  /** Seconds subtracted from the SSO cookie's max-age before trusting it. */
  const LoginMargin: int := 10 * 60

  /** The client's own state. `lastLogin` is in whole seconds. */
  datatype ClientState = ClientState(equipment: map<int, Equipment>, lastLogin: int)

  /** A request sent to the portal. */
  datatype Request =
    | LoginPost
    | LayoutGet
    | PlaybackPost(timeUnitCode: int, csrfToken: string)

  /** What the transport delivers for one request: `Failed` stands for a
      connection error or a status that `raise_for_status` rejects. */
  datatype Reply<T> = Failed | Ok(body: T)

  /** What a login POST that succeeded leaves behind: the cookie jar after
      the server's Set-Cookie headers, and the clock reading taken once the
      POST has returned. */
  datatype LoginAnswer = LoginAnswer(jar: seq<Cookie>, finishedAt: int)

  /** The errors a call can end with. */
  datatype Error =
    | MaxAgeUnreadable   // `int(max-age)` raises on the SSO cookie
    | LoginFailed        // the login POST failed
    | FetchFailed        // the layout GET or the playback POST failed
    | MissingCsrfToken   // no usable CSRF-TOKEN cookie after login
    | MalformedResponse  // the body does not decode to the expected shape

  /** The outcome of one call. */
  datatype Call<T> = Call(client: ClientState, result: Result<T, Error>, sent: seq<Request>)

  /** A new client: empty cache, last login at time zero. */
  function NewClient(): (c: ClientState)
    ensures c.equipment == map[] && c.lastLogin == 0
  {
    ClientState(map[], 0)
  }

  /** The SSO cookie is present with a readable max-age that, less the
      margin, still covers the time since the last login. */
  predicate SessionFresh(jar: seq<Cookie>, now: int, lastLogin: int) {
    var sso := FindCookie(jar, SsoCookieName);
    sso.Some? && sso.value.maxAge.Some? && now - lastLogin < sso.value.maxAge.value - LoginMargin
  }

  /** The SSO cookie is present but its max-age cannot be read as an integer. */
  predicate MaxAgeBroken(jar: seq<Cookie>) {
    var sso := FindCookie(jar, SsoCookieName);
    sso.Some? && sso.value.maxAge.None?
  }

  /** `async_login`. `now` is the clock reading the skip test uses. On
      success the result is the cookie jar in force afterwards: the same jar
      when the login is skipped, the one the server's reply left otherwise;
      a login that went to the server records the time it finished. */
  function Login(c: ClientState, jar: seq<Cookie>, now: int, reply: Reply<LoginAnswer>): (r: Call<seq<Cookie>>)
    ensures SessionFresh(jar, now, c.lastLogin) ==> r == Call(c, Success(jar), [])
    ensures MaxAgeBroken(jar) ==> r == Call(c, Failure(MaxAgeUnreadable), [])
    ensures !SessionFresh(jar, now, c.lastLogin) && !MaxAgeBroken(jar) ==>
              && r.sent == [LoginPost]
              && r.client.equipment == map[]
              && (r.result.Success? <==> reply.Ok?)
              && (reply.Ok? ==> r.client.lastLogin == reply.body.finishedAt && r.result.value == reply.body.jar)
              && (reply.Failed? ==> r.client.lastLogin == c.lastLogin && r.result == Failure(LoginFailed))
  {
    var sso := FindCookie(jar, SsoCookieName);
    if sso.Some? && sso.value.maxAge.None? then
      Call(c, Failure(MaxAgeUnreadable), [])
    else if sso.Some? && now - c.lastLogin < sso.value.maxAge.value - LoginMargin then
      Call(c, Success(jar), [])
    else
      var cleared := c.(equipment := map[]);
      match reply
      case Failed => Call(cleared, Failure(LoginFailed), [LoginPost])
      case Ok(answer) => Call(cleared.(lastLogin := answer.finishedAt), Success(answer.jar), [LoginPost])
  }

  /** `async_get_equipment`. */
  function GetEquipment(c: ClientState, jar: seq<Cookie>, now: int, loginReply: Reply<LoginAnswer>,
                        layoutReply: Reply<Option<seq<Node>>>): (r: Call<map<int, Equipment>>)
    ensures var l := Login(c, jar, now, loginReply);
            && r.client.lastLogin == l.client.lastLogin
            && (l.result.Failure? ==> r == Call(l.client, Failure(l.result.error), l.sent))
            && (l.result.Success? && |l.client.equipment| > 0 ==> r == Call(l.client, Success(l.client.equipment), l.sent))
            && (l.result.Success? && |l.client.equipment| == 0 ==>
                  && r.sent == l.sent + [LayoutGet]
                  && (r.result.Success? <==> layoutReply.Ok? && layoutReply.body.Some?)
                  && (layoutReply.Failed? ==> r.result == Failure(FetchFailed))
                  && (layoutReply == Ok(None) ==> r.result == Failure(MalformedResponse))
                  && (r.result.Failure? ==> r.client == l.client))
    ensures r.result.Success? ==> r.client.equipment == r.result.value
    ensures layoutReply.Ok? && layoutReply.body.Some? && LayoutGet in r.sent ==>
              r.result == Success(Flatten(layoutReply.body.value))
  {
    var l := Login(c, jar, now, loginReply);
    if l.result.Failure? then Call(l.client, Failure(l.result.error), l.sent)
    else if |l.client.equipment| > 0 then Call(l.client, Success(l.client.equipment), l.sent)
    else
      var sent := l.sent + [LayoutGet];
      match layoutReply
      case Failed => Call(l.client, Failure(FetchFailed), sent)
      case Ok(None) => Call(l.client, Failure(MalformedResponse), sent)
      case Ok(Some(topLevel)) =>
        var equipment := Flatten(topLevel);
        Call(l.client.(equipment := equipment), Success(equipment), sent)
  }

  /** The CSRF token usable for a protected request, if the jar has one. */
  function CsrfToken(jar: seq<Cookie>): (r: Option<string>)
    ensures r.Some? <==> FindCookie(jar, CsrfCookieName).Some? && FindCookie(jar, CsrfCookieName).value.value != ""
    ensures r.Some? ==> r.value == FindCookie(jar, CsrfCookieName).value.value && r.value != ""
  {
    var cookie := FindCookie(jar, CsrfCookieName);
    if cookie.None? || cookie.value.value == "" then None else Some(cookie.value.value)
  }

  /** `async_get_energy_data`. `decode` stands for `json.loads` together
      with the lookups of the expected keys; it sees the normalised text. */
  function GetEnergyData(c: ClientState, jar: seq<Cookie>, now: int, loginReply: Reply<LoginAnswer>,
                         unit: TimeUnit, playbackReply: Reply<string>,
                         decode: string -> Option<Payload>): (r: Call<seq<EnergyData>>)
    ensures var l := Login(c, jar, now, loginReply);
            && r.client == l.client
            && (l.result.Failure? ==> r.result == Failure(l.result.error) && r.sent == l.sent)
            && (l.result.Success? && CsrfToken(l.result.value).None? ==>
                  r.result == Failure(MissingCsrfToken) && r.sent == l.sent)
            && (l.result.Success? && CsrfToken(l.result.value).Some? ==>
                  && r.sent == l.sent + [PlaybackPost(unit.Code(), CsrfToken(l.result.value).value)]
                  && (r.result.Success? <==>
                        playbackReply.Ok? && decode(NormalizeText(playbackReply.body)).Some?)
                  && (playbackReply.Failed? ==> r.result == Failure(FetchFailed))
                  && (playbackReply.Ok? && decode(NormalizeText(playbackReply.body)).None? ==>
                        r.result == Failure(MalformedResponse)))
    ensures r.result.Success? ==>
              && playbackReply.Ok?
              && decode(NormalizeText(playbackReply.body)).Some?
              && r.result.value == ExtractSamples(decode(NormalizeText(playbackReply.body)).value)
  {
    var l := Login(c, jar, now, loginReply);
    if l.result.Failure? then Call(l.client, Failure(l.result.error), l.sent)
    else
      match CsrfToken(l.result.value)
      case None => Call(l.client, Failure(MissingCsrfToken), l.sent)
      case Some(token) =>
        var sent := l.sent + [PlaybackPost(unit.Code(), token)];
        match playbackReply
        case Failed => Call(l.client, Failure(FetchFailed), sent)
        case Ok(text) =>
          match decode(NormalizeText(text))
          case None => Call(l.client, Failure(MalformedResponse), sent)
          case Some(payload) => Call(l.client, Success(ExtractSamples(payload)), sent)
  }

  /** A login is skipped, leaving everything as it was and sending
      nothing, exactly when the SSO cookie still covers the time since the
      last login. */
  lemma LoginSkippedIffFresh(c: ClientState, jar: seq<Cookie>, now: int, reply: Reply<LoginAnswer>)
    ensures Login(c, jar, now, reply) == Call(c, Success(jar), []) <==> SessionFresh(jar, now, c.lastLogin)
    ensures Login(c, jar, now, reply).sent == [] <==> SessionFresh(jar, now, c.lastLogin) || MaxAgeBroken(jar)
  {
  }

  /** After a login that went to the server and succeeded, a second login
      within the new SSO cookie's max-age less the margin sends nothing. */
  lemma LoginAgainWithinWindow(c: ClientState, jar: seq<Cookie>, t1: int, newJar: seq<Cookie>, done: int,
                               t2: int, reply: Reply<LoginAnswer>)
    requires !SessionFresh(jar, t1, c.lastLogin) && !MaxAgeBroken(jar)
    requires FindCookie(newJar, SsoCookieName).Some?
    requires FindCookie(newJar, SsoCookieName).value.maxAge.Some?
    requires t2 - done < FindCookie(newJar, SsoCookieName).value.maxAge.value - LoginMargin
    ensures var first := Login(c, jar, t1, Ok(LoginAnswer(newJar, done)));
            && first.sent == [LoginPost]
            && Login(first.client, newJar, t2, reply) == Call(first.client, Success(newJar), [])
  {
    var first := Login(c, jar, t1, Ok(LoginAnswer(newJar, done)));
    assert first.client.lastLogin == done;
    assert SessionFresh(newJar, t2, first.client.lastLogin);
  }

  /** A login that is not skipped empties the cache, whatever the server
      answers. */
  lemma LoginClearsCache(c: ClientState, jar: seq<Cookie>, now: int, reply: Reply<LoginAnswer>)
    requires LoginPost in Login(c, jar, now, reply).sent
    ensures Login(c, jar, now, reply).client.equipment == map[]
    ensures Login(c, jar, now, reply).result.Success? <==> reply.Ok?
  {
  }

  /** Starting from an empty cache, a successful fetch of a non-empty layout
      followed by a second call while the session is fresh costs one layout
      request in all: the second call answers from the cache. */
  lemma GetEquipmentTwice(c: ClientState, jar: seq<Cookie>, t1: int, loginReply: Reply<LoginAnswer>,
                          topLevel: seq<Node>, jar2: seq<Cookie>, t2: int,
                          loginReply2: Reply<LoginAnswer>, layoutReply2: Reply<Option<seq<Node>>>)
    requires c.equipment == map[]
    requires GetEquipment(c, jar, t1, loginReply, Ok(Some(topLevel))).result.Success?
    requires |Flatten(topLevel)| > 0
    requires SessionFresh(jar2, t2, GetEquipment(c, jar, t1, loginReply, Ok(Some(topLevel))).client.lastLogin)
    ensures var first := GetEquipment(c, jar, t1, loginReply, Ok(Some(topLevel)));
            var second := GetEquipment(first.client, jar2, t2, loginReply2, layoutReply2);
            && LayoutGet in first.sent
            && second.sent == []
            && second.result == first.result == Success(Flatten(topLevel))
            && second.client == first.client
  {
    var first := GetEquipment(c, jar, t1, loginReply, Ok(Some(topLevel)));
    var l := Login(c, jar, t1, loginReply);
    assert l.client.equipment == map[];
    assert first.client.equipment == Flatten(topLevel);
  }

  /** A protected request is only sent with a non-empty CSRF token taken
      from the portal's CSRF-TOKEN cookie. */
  lemma EnergyRequestCarriesToken(c: ClientState, jar: seq<Cookie>, now: int, loginReply: Reply<LoginAnswer>,
                                  unit: TimeUnit, playbackReply: Reply<string>,
                                  decode: string -> Option<Payload>, code: int, token: string)
    requires PlaybackPost(code, token) in GetEnergyData(c, jar, now, loginReply, unit, playbackReply, decode).sent
    ensures code == unit.Code()
    ensures token != ""
    ensures var l := Login(c, jar, now, loginReply);
            && l.result.Success?
            && FindCookie(l.result.value, CsrfCookieName).Some?
            && FindCookie(l.result.value, CsrfCookieName).value.value == token
  {
    var l := Login(c, jar, now, loginReply);
    assert PlaybackPost(code, token) !in l.sent;
  }

  /** Asked for energy data without a unit, the client requests weekly
      data: the playback request carries code 5. */
  lemma DefaultRequestIsWeekly(c: ClientState, jar: seq<Cookie>, now: int, loginReply: Reply<LoginAnswer>,
                               playbackReply: Reply<string>, decode: string -> Option<Payload>,
                               code: int, token: string)
    requires PlaybackPost(code, token) in GetEnergyData(c, jar, now, loginReply, DefaultTimeUnit, playbackReply, decode).sent
    ensures code == 5 && TimeUnitOf(code) == Some(Week)
  {
    EnergyRequestCarriesToken(c, jar, now, loginReply, DefaultTimeUnit, playbackReply, decode, code, token);
  }
}

=== FILE: cookies.dfy ===
/** The session's cookie jar as the client reads it. */
module Cookies {
  import opened Wrappers

  /** The host whose cookies the client looks at. */
  const PortalDomain: string := "monitoring.solaredge.com"

  /** A stored cookie. `maxAge` is `None` when its `max-age` attribute is
      empty or not an integer. */
  datatype Cookie = Cookie(name: string, domain: string, value: string, maxAge: Option<int>)

  /** The cookie is the portal's cookie called `name`. */
  predicate IsPortalCookie(c: Cookie, name: string) {
    c.domain == PortalDomain && c.name == name
  }

  /** `_find_cookie`: the first cookie of the jar that is the portal's
      cookie called `name`, if any. */
  function FindCookie(jar: seq<Cookie>, name: string): (r: Option<Cookie>)
    ensures r.None? <==> forall i :: 0 <= i < |jar| ==> !IsPortalCookie(jar[i], name)
    ensures r.Some? ==> exists i :: 0 <= i < |jar| && jar[i] == r.value && IsPortalCookie(jar[i], name)
                                    && forall j :: 0 <= j < i ==> !IsPortalCookie(jar[j], name)
    decreases |jar|
  {
    if |jar| == 0 then None
    else if IsPortalCookie(jar[0], name) then Some(jar[0])
    else
      var r := FindCookie(jar[1..], name);
      assert forall i :: 1 <= i < |jar| ==> jar[i] == jar[1..][i - 1];
      r
  }
}

=== FILE: energy.dfy ===
/** Energy samples: the decoded playback payload holds, under
    `reportersData`, one object per reporting interval keyed by its date
    text; each maps group labels to lists of `{key, value}` entries. The
    client turns every interval into one sample whose values map an
    equipment id to the energy it produced. */
module Energy {
  import opened LastWins

  /** One `{key, value}` entry: equipment id and energy (Wh) as text. */
  datatype Entry = Entry(key: int, value: string)

  /** A group name with its list of entries. */
  datatype Group = Group(name: string, entries: seq<Entry>)

  /** One `reportersData` item: the interval's date text and its groups. */
  datatype Interval = Interval(date: string, groups: seq<Group>)

  /** The decoded payload; `reportersData` in document order. */
  datatype Payload = Payload(reportersData: seq<Interval>)

  /** `EnergyData`: the interval start and the energy per equipment id. */
  datatype EnergyData = EnergyData(startTime: string, values: map<int, string>)

  /** All entries of all groups, group after group: an entry is among them
      exactly when some group holds it. */
  function Entries(groups: seq<Group>): (es: seq<Entry>)
    ensures forall e :: e in es <==> exists g :: g in groups && e in g.entries
    decreases |groups|
  {
    if |groups| == 0 then []
    else
      assert forall g :: g in groups <==> g == groups[0] || g in groups[1..];
      groups[0].entries + Entries(groups[1..])
  }

  /** The entries as `(id, energy)` assignments. */
  function EntryAssignments(es: seq<Entry>): (kvs: seq<(int, string)>)
    ensures |kvs| == |es|
    ensures forall i :: 0 <= i < |es| ==> kvs[i] == (es[i].key, es[i].value)
  {
    seq(|es|, i requires 0 <= i < |es| => (es[i].key, es[i].value))
  }

  /** An id is in the last-writer-wins dictionary of the groups' entries
      exactly when some entry of some group carries it. */
  lemma EntryId(groups: seq<Group>, k: int)
    ensures k in Build(EntryAssignments(Entries(groups)))
        <==> exists g, e :: g in groups && e in g.entries && e.key == k
  {
    var es := Entries(groups);
    var kvs := EntryAssignments(es);
    BuildSpec(kvs);
    if k in Build(kvs) {
      var i :| 0 <= i < |kvs| && kvs[i].0 == k;
      assert es[i] in es;
    }
    if exists g, e :: g in groups && e in g.entries && e.key == k {
      var g, e :| g in groups && e in g.entries && e.key == k;
      assert e in es;
      var i :| 0 <= i < |es| && es[i] == e;
      assert kvs[i].0 == k;
    }
  }

  /** `EntryId` for every id. */
  lemma EntryIds(groups: seq<Group>)
    ensures forall k :: k in Build(EntryAssignments(Entries(groups)))
                   <==> exists g, e :: g in groups && e in g.entries && e.key == k
  {
    forall k
      ensures k in Build(EntryAssignments(Entries(groups)))
          <==> exists g, e :: g in groups && e in g.entries && e.key == k
    {
      EntryId(groups, k);
    }
  }

  /** The dict comprehension over all groups' entries for one interval: the
      sample starts at the interval's date and holds exactly the ids that
      some entry of some group carries, each with the value of the
      last-writer-wins dictionary of the entries. */
  function Sample(iv: Interval): (r: EnergyData)
    ensures r.startTime == iv.date
    ensures forall k :: k in r.values <==> exists g, e :: g in iv.groups && e in g.entries && e.key == k
    ensures r.values == Build(EntryAssignments(Entries(iv.groups)))
  {
    var kvs := EntryAssignments(Entries(iv.groups));
    AssignAllIsBuild(map[], kvs);
    EntryIds(iv.groups);
    assert map[] + Build(kvs) == Build(kvs);
    EnergyData(iv.date, AssignAll(map[], kvs))
  }

  /** The list comprehension over `reportersData`: one sample per interval,
      in the payload's order, each stamped with its interval's date and
      holding the last-writer-wins dictionary of its interval's entries. */
  function ExtractSamples(p: Payload): (r: seq<EnergyData>)
    ensures |r| == |p.reportersData|
    ensures forall i :: 0 <= i < |r| ==> r[i].startTime == p.reportersData[i].date
    ensures forall i :: 0 <= i < |r| ==> r[i].values == Build(EntryAssignments(Entries(p.reportersData[i].groups)))
  {
    seq(|p.reportersData|, i requires 0 <= i < |p.reportersData| => Sample(p.reportersData[i]))
  }

  /** Each id maps to the value of the last entry with that id, taking the
      groups in order and the entries of each group in order. */
  lemma SampleLastWins(iv: Interval, j: int)
    requires 0 <= j < |Entries(iv.groups)|
    requires IsLast(EntryAssignments(Entries(iv.groups)), j)
    ensures Entries(iv.groups)[j].key in Sample(iv).values
    ensures Sample(iv).values[Entries(iv.groups)[j].key] == Entries(iv.groups)[j].value
  {
    var es := Entries(iv.groups);
    var kvs := EntryAssignments(es);
    BuildSpec(kvs);
    assert kvs[j].0 in KeysOf(kvs);
  }

  /** In the list the client returns, sample `i` maps each id to the value
      of the last entry with that id in interval `i`. */
  lemma ExtractSamplesLastWins(p: Payload, i: int, j: int)
    requires 0 <= i < |p.reportersData|
    requires 0 <= j < |Entries(p.reportersData[i].groups)|
    requires IsLast(EntryAssignments(Entries(p.reportersData[i].groups)), j)
    ensures Entries(p.reportersData[i].groups)[j].key in ExtractSamples(p)[i].values
    ensures ExtractSamples(p)[i].values[Entries(p.reportersData[i].groups)[j].key]
         == Entries(p.reportersData[i].groups)[j].value
  {
    SampleLastWins(p.reportersData[i], j);
  }

  /** With distinct ids across all entries, a sample has one value per entry. */
  lemma SampleSize(iv: Interval)
    requires DistinctKeys(EntryAssignments(Entries(iv.groups)))
    ensures |Sample(iv).values| == |Entries(iv.groups)|
  {
    BuildSize(EntryAssignments(Entries(iv.groups)));
  }
}

=== FILE: lastwins.dfy ===
/** Building a dictionary by assigning key/value pairs one after another, as
    Python does for `d[k] = v` in a loop or a dict comprehension: a later
    pair overwrites an earlier one with the same key. */
module LastWins {

  /** The keys mentioned by the pairs. */
  function KeysOf<K, V>(kvs: seq<(K, V)>): set<K> {
    set i | 0 <= i < |kvs| :: kvs[i].0
  }

  /** No pair after position `i` has the key of pair `i`. */
  predicate IsLast<K(==), V>(kvs: seq<(K, V)>, i: int)
    requires 0 <= i < |kvs|
  {
    forall j :: i < j < |kvs| ==> kvs[j].0 != kvs[i].0
  }

  /** No two pairs share a key. */
  predicate DistinctKeys<K(==), V>(kvs: seq<(K, V)>) {
    forall i, j :: 0 <= i < j < |kvs| ==> kvs[i].0 != kvs[j].0
  }

  /** The keys of a sequence of pairs are those of all but the last pair,
      plus the last pair's key. */
  lemma KeysOfSnoc<K, V>(kvs: seq<(K, V)>)
    requires |kvs| > 0
    ensures KeysOf(kvs) == KeysOf(kvs[..|kvs| - 1]) + {kvs[|kvs| - 1].0}
  {
    var init := kvs[..|kvs| - 1];
    assert forall i :: 0 <= i < |init| ==> init[i] == kvs[i];
  }

  /** The dictionary obtained by assigning the pairs in order, starting
      from an empty one. */
  function Build<K, V>(kvs: seq<(K, V)>): map<K, V>
    decreases |kvs|
  {
    if |kvs| == 0 then map[]
    else Build(kvs[..|kvs| - 1])[kvs[|kvs| - 1].0 := kvs[|kvs| - 1].1]
  }

  /** The assignments `m[k] = v` of the pairs, in order, on top of `m`:
      the shape of a Python loop that fills a dictionary. */
  function AssignAll<K, V>(m: map<K, V>, kvs: seq<(K, V)>): map<K, V>
    decreases |kvs|
  {
    if |kvs| == 0 then m
    else AssignAll(m[kvs[0].0 := kvs[0].1], kvs[1..])
  }

  /** The built dictionary holds exactly the keys of the pairs, and each key
      maps to the value of the last pair with that key. */
  lemma {:induction false} BuildSpec<K, V>(kvs: seq<(K, V)>)
    ensures Build(kvs).Keys == KeysOf(kvs)
    ensures forall i :: 0 <= i < |kvs| && IsLast(kvs, i) ==> Build(kvs)[kvs[i].0] == kvs[i].1
    decreases |kvs|
  {
    if |kvs| > 0 {
      var n := |kvs| - 1;
      var init := kvs[..n];
      var prev := Build(init);
      BuildSpec(init);
      KeysOfSnoc(kvs);
      assert Build(kvs) == prev[kvs[n].0 := kvs[n].1];
      forall i | 0 <= i < |kvs| && IsLast(kvs, i)
        ensures Build(kvs)[kvs[i].0] == kvs[i].1
      {
        if i < n {
          assert init[i] == kvs[i];
          assert kvs[n].0 != kvs[i].0;
          assert IsLast(init, i) by {
            forall j | i < j < |init|
              ensures init[j].0 != init[i].0
            {
              assert init[j] == kvs[j];
            }
          }
        }
      }
    }
  }

  /** A loop of assignments is the built dictionary laid over the start. */
  lemma {:induction false} AssignAllIsBuild<K, V>(m: map<K, V>, kvs: seq<(K, V)>)
    ensures AssignAll(m, kvs) == m + Build(kvs)
    decreases |kvs|
  {
    if |kvs| > 0 {
      var n := |kvs| - 1;
      var init, last := kvs[..n], kvs[n];
      AssignAllAppend(m, init, [last]);
      assert init + [last] == kvs;
      AssignAllIsBuild(m, init);
      assert AssignAll(AssignAll(m, init), [last]) == AssignAll(m, init)[last.0 := last.1];
      UnionUpdate(m, Build(init), last.0, last.1);
    }
  }

  lemma UnionUpdate<K, V>(m: map<K, V>, b: map<K, V>, k: K, v: V)
    ensures (m + b)[k := v] == m + b[k := v]
  {
  }

  /** Assigning `a` then `b` in one loop is two loops in a row. */
  lemma {:induction false} AssignAllAppend<K, V>(m: map<K, V>, a: seq<(K, V)>, b: seq<(K, V)>)
    ensures AssignAll(m, a + b) == AssignAll(AssignAll(m, a), b)
    decreases |a|
  {
    if |a| == 0 {
      assert a + b == b;
    } else {
      assert (a + b)[0] == a[0] && (a + b)[1..] == a[1..] + b;
      AssignAllAppend(m[a[0].0 := a[0].1], a[1..], b);
    }
  }

  /** With distinct keys no pair is overwritten: one entry per pair. */
  lemma {:induction false} BuildSize<K, V>(kvs: seq<(K, V)>)
    requires DistinctKeys(kvs)
    ensures |Build(kvs)| == |kvs|
    decreases |kvs|
  {
    if |kvs| > 0 {
      var n := |kvs| - 1;
      var init := kvs[..n];
      assert DistinctKeys(init);
      BuildSize(init);
      BuildSpec(init);
      assert forall i :: 0 <= i < n ==> init[i].0 != kvs[n].0;
      assert kvs[n].0 !in Build(init);
    }
  }
}

=== FILE: layout.dfy ===
/** The logical layout of a site: a tree of equipment nodes, each with its
    own data record and a list of children, flattened into a dictionary
    from equipment id to data record. */
module Layout {
  import opened LastWins

  /** A node's `data` object: the integer `id` plus the other fields. */
  datatype Equipment = Equipment(id: int, fields: map<string, string>)

  /** A `{data, children}` node of the layout tree. */
  datatype Node = Node(data: Equipment, children: seq<Node>)

  /** `extract_nested_data(node, acc)`: record the node's data under its
      id, then walk its children in order. No id already recorded is lost,
      and the node's own id is recorded. */
  function ExtractNested(node: Node, acc: map<int, Equipment>): (r: map<int, Equipment>)
    ensures acc.Keys <= r.Keys
    ensures node.data.id in r
    decreases node, 1
  {
    ExtractAll(node.children, acc[node.data.id := node.data])
  }

  /** The `for` loop that walks a list of nodes in order. No id already
      recorded is lost, and the id of every node of the list is recorded. */
  function ExtractAll(nodes: seq<Node>, acc: map<int, Equipment>): (r: map<int, Equipment>)
    ensures acc.Keys <= r.Keys
    ensures forall i :: 0 <= i < |nodes| ==> nodes[i].data.id in r
    decreases nodes, 0
  {
    if |nodes| == 0 then acc
    else
      assert forall i :: 1 <= i < |nodes| ==> nodes[i] == nodes[1..][i - 1];
      ExtractAll(nodes[1..], ExtractNested(nodes[0], acc))
  }

  /** Reference definition: the data of every node of the forest, in
      pre-order (a node before its children, siblings left to right). */
  function PreOrder(nodes: seq<Node>): seq<Equipment>
    decreases nodes
  {
    if |nodes| == 0 then []
    else [nodes[0].data] + PreOrder(nodes[0].children) + PreOrder(nodes[1..])
  }

  /** Pre-order data as `(id, data)` assignments. */
  function Assignments(items: seq<Equipment>): (kvs: seq<(int, Equipment)>)
    ensures |kvs| == |items|
    ensures forall i :: 0 <= i < |items| ==> kvs[i] == (items[i].id, items[i])
  {
    seq(|items|, i requires 0 <= i < |items| => (items[i].id, items[i]))
  }

  /** Every id of the forest is unique. */
  predicate UniqueIds(nodes: seq<Node>) {
    DistinctKeys(Assignments(PreOrder(nodes)))
  }

  /** The ids assigned from a list of data records are the ids of its
      records. */
  lemma AssignedIds(items: seq<Equipment>)
    ensures Build(Assignments(items)).Keys == set e | e in items :: e.id
  {
    var kvs := Assignments(items);
    BuildSpec(kvs);
    forall e | e in items
      ensures e.id in KeysOf(kvs)
    {
      var i :| 0 <= i < |items| && items[i] == e;
      assert kvs[i].0 == e.id;
    }
  }

  /** The equipment dictionary built from `logicalTree.children`: its ids
      are the ids of all nodes, at any depth. */
  function Flatten(topLevel: seq<Node>): (r: map<int, Equipment>)
    ensures r.Keys == set e | e in PreOrder(topLevel) :: e.id
  {
    var kvs := Assignments(PreOrder(topLevel));
    ExtractAllIsPreOrder(topLevel, map[]);
    AssignAllIsBuild(map[], kvs);
    AssignedIds(PreOrder(topLevel));
    assert map[] + Build(kvs) == Build(kvs);
    ExtractAll(topLevel, map[])
  }

  lemma AssignmentsAppend(a: seq<Equipment>, b: seq<Equipment>)
    ensures Assignments(a + b) == Assignments(a) + Assignments(b)
  {
    var l, r := Assignments(a + b), Assignments(a) + Assignments(b);
    assert |l| == |r|;
    forall i | 0 <= i < |l|
      ensures l[i] == r[i]
    {
      if i < |a| {
        assert (a + b)[i] == a[i];
      } else {
        assert (a + b)[i] == b[i - |a|];
      }
    }
  }

  /** The recursive walk performs the assignments of the nodes' data in
      pre-order. */
  lemma {:induction false} ExtractAllIsPreOrder(nodes: seq<Node>, acc: map<int, Equipment>)
    ensures ExtractAll(nodes, acc) == AssignAll(acc, Assignments(PreOrder(nodes)))
    decreases nodes
  {
    if |nodes| > 0 {
      var n := nodes[0];
      var head := [(n.data.id, n.data)];
      var kids := Assignments(PreOrder(n.children));
      var rest := Assignments(PreOrder(nodes[1..]));
      ExtractAllIsPreOrder(nodes[1..], ExtractNested(n, acc));
      ExtractAllIsPreOrder(n.children, acc[n.data.id := n.data]);
      assert AssignAll(acc, head) == acc[n.data.id := n.data] by {
        assert head[1..] == [];
      }
      PreOrderAssignments(nodes);
      AssignAllAppend(acc, head, kids);
      AssignAllAppend(acc, head + kids, rest);
    }
  }

  lemma PreOrderAssignments(nodes: seq<Node>)
    requires |nodes| > 0
    ensures Assignments(PreOrder(nodes))
         == [(nodes[0].data.id, nodes[0].data)] + Assignments(PreOrder(nodes[0].children)) + Assignments(PreOrder(nodes[1..]))
  {
    var n := nodes[0];
    assert PreOrder(nodes) == [n.data] + PreOrder(n.children) + PreOrder(nodes[1..]);
    AssignmentsAppend([n.data] + PreOrder(n.children), PreOrder(nodes[1..]));
    AssignmentsAppend([n.data], PreOrder(n.children));
    assert Assignments([n.data]) == [(n.data.id, n.data)];
  }

  /** Pre-order reaches every depth: a listed node's data and all of its
      descendants' data are in the pre-order of the forest. */
  lemma {:induction false} PreOrderReachesDescendants(nodes: seq<Node>, k: int)
    requires 0 <= k < |nodes|
    ensures nodes[k].data in PreOrder(nodes)
    ensures forall e :: e in PreOrder(nodes[k].children) ==> e in PreOrder(nodes)
    decreases nodes
  {
    if k > 0 {
      PreOrderReachesDescendants(nodes[1..], k - 1);
    }
  }

  /** Flattening is the last-writer-wins dictionary of the pre-order. */
  lemma FlattenIsBuild(topLevel: seq<Node>)
    ensures Flatten(topLevel) == Build(Assignments(PreOrder(topLevel)))
  {
    ExtractAllIsPreOrder(topLevel, map[]);
    AssignAllIsBuild(map[], Assignments(PreOrder(topLevel)));
  }

  /** Each id maps to the data of the last node with that id in pre-order
      (duplicate ids: last writer wins). */
  lemma FlattenLastWins(topLevel: seq<Node>, i: int)
    requires 0 <= i < |PreOrder(topLevel)|
    requires IsLast(Assignments(PreOrder(topLevel)), i)
    ensures PreOrder(topLevel)[i].id in Flatten(topLevel)
    ensures Flatten(topLevel)[PreOrder(topLevel)[i].id] == PreOrder(topLevel)[i]
  {
    var items := PreOrder(topLevel);
    var kvs := Assignments(items);
    FlattenIsBuild(topLevel);
    BuildSpec(kvs);
    assert kvs[i].0 in KeysOf(kvs);
  }

  /** With unique ids the dictionary has one entry per node. */
  lemma FlattenSize(topLevel: seq<Node>)
    requires UniqueIds(topLevel)
    ensures |Flatten(topLevel)| == |PreOrder(topLevel)|
  {
    FlattenIsBuild(topLevel);
    BuildSize(Assignments(PreOrder(topLevel)));
  }
}

=== FILE: normalize.dfy ===
/** The playback endpoint answers with a JavaScript object literal. The
    client turns it into strict JSON by a fixed chain of textual
    replacements: every `'` becomes `"`, then each known bare object key
    `k:` becomes `"k":`. */
module Normalize {
  import opened Text

  /** A key the chain can quote: non-empty, without `"` or `:` or `'`. */
  predicate IsKeyWord(w: string) {
    |w| > 0 && '"' !in w && ':' !in w && '\'' !in w
  }

  /** The unquoted form `w:` of a key as it appears in the response. */
  function Bare(w: string): string {
    w + ":"
  }

  /** The quoted form `"w":` the chain writes in its place. */
  function Quoted(w: string): string {
    "\"" + w + "\":"
  }

  /** The keys the chain quotes, in the order of the replacements. */
  const QuotedKeys: seq<string> :=
    ["timeUnit", "fieldData", "fieldDataArray", "reportersData", "key", "value"]

  predicate AllKeyWords(keys: seq<string>) {
    forall i :: 0 <= i < |keys| ==> IsKeyWord(keys[i])
  }

  /** One link of the chain: `s.replace("w:", '"w":')`. */
  function QuoteKey(s: string, w: string): string
    requires IsKeyWord(w)
  {
    Replace(s, Bare(w), Quoted(w))
  }

  /** One link only adds `"` characters: with `"` erased, nothing changes. */
  lemma QuoteKeyOnlyQuotes(s: string, w: string)
    requires IsKeyWord(w)
    ensures Erase(QuoteKey(s, w), {'"'}) == Erase(s, {'"'})
  {
    var cs := {'"'};
    EraseConcat(w, ":", cs);
    EraseConcat("\"", w, cs);
    EraseConcat("\"" + w, "\":", cs);
    EraseReplace(s, Bare(w), Quoted(w), cs);
  }

  /** One link never introduces a `'`. */
  lemma QuoteKeyKeepsNoSingleQuote(s: string, w: string)
    requires IsKeyWord(w)
    ensures '\'' !in s ==> '\'' !in QuoteKey(s, w)
  {
    if '\'' !in s {
      ReplaceKeepsOut(s, Bare(w), Quoted(w), '\'');
    }
  }

  /** The key replacements applied one after another, in list order. They
      change nothing but `"` characters and never introduce a `'`. */
  function QuoteKeys(s: string, keys: seq<string>): (t: string)
    requires AllKeyWords(keys)
    ensures Erase(t, {'"'}) == Erase(s, {'"'})
    ensures '\'' !in s ==> '\'' !in t
    decreases |keys|
  {
    if |keys| == 0 then s
    else
      QuoteKeyOnlyQuotes(s, keys[0]);
      QuoteKeyKeepsNoSingleQuote(s, keys[0]);
      QuoteKeys(QuoteKey(s, keys[0]), keys[1..])
  }

  /** Text the chain leaves as it is: no `'` and no bare known key. */
  predicate Normalized(t: string) {
    && '\'' !in t
    && forall i :: 0 <= i < |QuotedKeys| ==> !Occurs(Bare(QuotedKeys[i]), t)
  }

  /** The whole chain applied to the response text. Its result holds no
      `'` and none of the six keys bare. */
  function NormalizeText(s: string): (t: string)
    ensures Normalized(t)
  {
    var u := Replace(s, "'", "\"");
    ReplaceRemovesChar(s, '\'', "\"");
    ChainRemovesBare(u);
    QuoteKeys(u, QuotedKeys)
  }

  /** No bare key `w1:` can start inside the quoted text `"w2":`. */
  lemma NotStartInQuoted(w1: string, w2: string, i: int, t: string)
    requires IsKeyWord(w1) && IsKeyWord(w2)
    requires 0 <= i < |Quoted(w2)|
    ensures !StartsWith(Quoted(w2)[i..] + t, Bare(w1))
  {
    var q, p := Quoted(w2), Bare(w1);
    var u := q[i..] + t;
    var n1, n2 := |w1|, |w2|;
    assert q[0] == '"' && q[n2 + 1] == '"' && q[n2 + 2] == ':';
    assert forall j :: 1 <= j <= n2 ==> q[j] == w2[j - 1];
    assert p[n1] == ':';
    assert forall j :: 0 <= j < n1 ==> p[j] == w1[j];
    // an index at which the text and the bare key disagree
    var k: int;
    if i == 0 || i == n2 + 2 {
      k := 0;
      assert w1[0] in w1;
    } else if n2 + 1 - i <= n1 {
      k := n2 + 1 - i;
      assert u[k] == '"';
      if k < n1 {
        assert w1[k] in w1;
      }
    } else {
      k := n1;
      assert u[n1] == q[i + n1] == w2[i + n1 - 1];
      assert w2[i + n1 - 1] in w2;
    }
    assert k < |p| && k < |u| && u[k] != p[k];
    if |p| <= |u| {
      assert u[..|p|][k] == u[k];
    }
  }

  /** A bare key at the start of `[s[0]] + QuoteKey(s[1..], w2)` was
      already at the start of `s`. */
  lemma QuotedPrefixBack(s: string, w1: string, w2: string)
    requires IsKeyWord(w1) && IsKeyWord(w2)
    requires |s| > 0
    ensures StartsWith([s[0]] + QuoteKey(s[1..], w2), Bare(w1)) ==> StartsWith(s, Bare(w1))
  {
    var p1, t := Bare(w1), QuoteKey(s[1..], w2);
    var out := [s[0]] + t;
    if StartsWith(out, p1) {
      assert StartsWith(t, p1[1..]) by {
        assert forall k :: 0 <= k < |p1| - 1 ==> t[k] == out[k + 1];
      }
      assert '"' !in p1[1..] by {
        assert p1[1..] == w1[1..] + ":";
      }
      PrefixThroughReplace(s[1..], Bare(w2), Quoted(w2), p1[1..]);
      assert s[..|p1|] == [s[0]] + s[1..][..|p1| - 1];
    }
  }

  /** After `s.replace("w2:", '"w2":')` no bare `w1:` is left: neither one
      the replacement itself created nor, when `w1` differs from `w2`, one
      that was absent before. */
  lemma {:induction false} NoBareAfterQuoting(s: string, w1: string, w2: string)
    requires IsKeyWord(w1) && IsKeyWord(w2)
    requires w1 == w2 || !Occurs(Bare(w1), s)
    ensures !Occurs(Bare(w1), QuoteKey(s, w2))
    decreases |s|
  {
    var p1, p2, q2 := Bare(w1), Bare(w2), Quoted(w2);
    if |s| < |p2| {
      if w1 == w2 {
        ShortNotOccurs(p1, s);
      }
    } else if s[..|p2|] == p2 {
      var rest := s[|p2|..];
      if w1 != w2 {
        NotOccursSuffix(p1, s, |p2|);
      }
      NoBareAfterQuoting(rest, w1, w2);
      var t := QuoteKey(rest, w2);
      forall i | 0 <= i < |q2|
        ensures !StartsWith(q2[i..] + t, p1)
      {
        NotStartInQuoted(w1, w2, i, t);
      }
      NotOccursPrepend(p1, q2, t);
    } else {
      if w1 != w2 {
        NotOccursSuffix(p1, s, 1);
      }
      NoBareAfterQuoting(s[1..], w1, w2);
      var t := QuoteKey(s[1..], w2);
      var out := [s[0]] + t;
      assert out[1..] == t;
      QuotedPrefixBack(s, w1, w2);
    }
  }

  /** A later link never brings back a bare key that is already gone. */
  lemma {:induction false} QuoteKeysKeepsAbsent(s: string, keys: seq<string>, w: string)
    requires AllKeyWords(keys) && IsKeyWord(w)
    requires !Occurs(Bare(w), s)
    ensures !Occurs(Bare(w), QuoteKeys(s, keys))
    decreases |keys|
  {
    if |keys| > 0 {
      NoBareAfterQuoting(s, w, keys[0]);
      QuoteKeysKeepsAbsent(QuoteKey(s, keys[0]), keys[1..], w);
    }
  }

  /** Every key of the chain is quoted: none of them survives bare. */
  lemma {:induction false} QuoteKeysRemovesBare(s: string, keys: seq<string>, i: int)
    requires AllKeyWords(keys)
    requires 0 <= i < |keys|
    ensures !Occurs(Bare(keys[i]), QuoteKeys(s, keys))
    decreases |keys|
  {
    if i == 0 {
      NoBareAfterQuoting(s, keys[0], keys[0]);
      QuoteKeysKeepsAbsent(QuoteKey(s, keys[0]), keys[1..], keys[0]);
    } else {
      QuoteKeysRemovesBare(QuoteKey(s, keys[0]), keys[1..], i - 1);
    }
  }

  /** When no key of the chain occurs bare, the chain changes nothing. */
  lemma {:induction false} QuoteKeysAbsent(s: string, keys: seq<string>)
    requires AllKeyWords(keys)
    requires forall i :: 0 <= i < |keys| ==> !Occurs(Bare(keys[i]), s)
    ensures QuoteKeys(s, keys) == s
    decreases |keys|
  {
    if |keys| > 0 {
      QuoteKeysAbsent(s, keys[1..]);
    }
  }

  lemma QuotedKeysAreKeyWords()
    ensures AllKeyWords(QuotedKeys)
  {
  }

  /** After the six key links none of the six keys is left bare. */
  lemma ChainRemovesBare(u: string)
    ensures AllKeyWords(QuotedKeys)
    ensures forall i :: 0 <= i < |QuotedKeys| ==> !Occurs(Bare(QuotedKeys[i]), QuoteKeys(u, QuotedKeys))
  {
    QuotedKeysAreKeyWords();
    forall i | 0 <= i < |QuotedKeys|
      ensures !Occurs(Bare(QuotedKeys[i]), QuoteKeys(u, QuotedKeys))
    {
      QuoteKeysRemovesBare(u, QuotedKeys, i);
    }
  }

  /** The chain leaves a text unchanged exactly when it is already normalised. */
  lemma NormalizeTextFixedPoint(t: string)
    ensures NormalizeText(t) == t <==> Normalized(t)
  {
    QuotedKeysAreKeyWords();
    if Normalized(t) {
      OccursSingle('\'', t);
      QuoteKeysAbsent(t, QuotedKeys);
    }
  }

  /** Normalising twice is the same as normalising once. */
  lemma NormalizeTextIdempotent(s: string)
    ensures NormalizeText(NormalizeText(s)) == NormalizeText(s)
  {
    NormalizeTextFixedPoint(NormalizeText(s));
  }

  /** Apart from quote characters the text is left exactly as it was. */
  lemma NormalizeTextOnlyQuotes(s: string)
    ensures Erase(NormalizeText(s), {'"', '\''}) == Erase(s, {'"', '\''})
  {
    var u := Replace(s, "'", "\"");
    EraseReplace(s, "'", "\"", {'"', '\''});
    QuotedKeysAreKeyWords();
    QuoteKeysOnlyQuotes(u, QuotedKeys);
    assert NormalizeText(s) == QuoteKeys(u, QuotedKeys);
  }

  /** With both quote characters erased, the key links change nothing. */
  lemma QuoteKeysOnlyQuotes(u: string, keys: seq<string>)
    requires AllKeyWords(keys)
    ensures Erase(QuoteKeys(u, keys), {'"', '\''}) == Erase(u, {'"', '\''})
  {
    var t := QuoteKeys(u, keys);
    EraseErase(t, {'"'}, {'\''});
    EraseErase(u, {'"'}, {'\''});
    assert {'"'} + {'\''} == {'"', '\''};
  }

  /** `w` is a suffix of `s`. */
  predicate EndsWith(s: string, w: string) {
    |w| <= |s| && s[|s| - |w|..] == w
  }

  /** The only `:` of `w2:` is its last character, so `w1:` occurs in it
      only as a suffix. */
  lemma BareInBare(w1: string, w2: string)
    requires IsKeyWord(w1) && IsKeyWord(w2)
    ensures Occurs(Bare(w1), Bare(w2)) ==> EndsWith(w2, w1)
  {
    var p1, p2 := Bare(w1), Bare(w2);
    OccursIffAtIndex(p1, p2);
    if Occurs(p1, p2) {
      var i :| OccursAt(p1, p2, i);
      assert p2[i + |w1|] == p1[|w1|] == ':';
      assert forall j :: 0 <= j < |w2| ==> p2[j] == w2[j] && w2[j] in w2;
      assert i + |w1| == |w2|;
      assert w2[|w2| - |w1|..] == p2[i..i + |w1|] == p1[..|w1|] == w1;
    }
  }

  /** None of the keys of the chain ends another one. */
  predicate SuffixFree(keys: seq<string>) {
    forall i, j :: 0 <= i < |keys| && 0 <= j < |keys| && i != j ==> !EndsWith(keys[i], keys[j])
  }

  /** Dropping the first key keeps a key list suffix-free. */
  lemma SuffixFreeTail(keys: seq<string>)
    requires |keys| > 0 && SuffixFree(keys)
    ensures SuffixFree(keys[1..])
  {
    forall a, b | 0 <= a < |keys[1..]| && 0 <= b < |keys[1..]| && a != b
      ensures !EndsWith(keys[1..][a], keys[1..][b])
    {
      assert keys[1..][a] == keys[a + 1] && keys[1..][b] == keys[b + 1];
    }
  }

  /** The link for `w` turns `w:` itself into `"w":`. */
  lemma QuoteKeyOnItself(w: string)
    requires IsKeyWord(w)
    ensures QuoteKey(Bare(w), w) == Quoted(w)
  {
    var b := Bare(w);
    assert b[..|b|] == b && b[|b|..] == [];
    assert QuoteKey(b, w) == Quoted(w) + Replace([], b, Quoted(w));
  }

  /** `"k":` holds no bare key. */
  lemma NoBareInQuoted(w: string, k: string)
    requires IsKeyWord(w) && IsKeyWord(k)
    ensures !Occurs(Bare(w), Quoted(k))
  {
    var q: string := Quoted(k);
    var e: string := [];
    forall i | 0 <= i < |q|
      ensures !StartsWith(q[i..] + e, Bare(w))
    {
      NotStartInQuoted(w, k, i, e);
    }
    ShortNotOccurs(Bare(w), e);
    NotOccursPrepend(Bare(w), q, e);
    assert q + e == q;
  }

  /** A bare key cannot straddle the end of a text that ends with `:`. */
  lemma NoStraddleAfterColon(w: string, x: string, y: string)
    requires IsKeyWord(w)
    requires |x| > 0 && x[|x| - 1] == ':'
    ensures NoStraddle(Bare(w), x, y)
  {
    var p := Bare(w);
    forall i | 0 <= i < |x| < i + |p|
      ensures !OccursAt(p, x + y, i)
    {
      var j := |x| - 1 - i;
      assert p[j] == w[j] && w[j] in w;
      MismatchAt(p, x + y, i, j);
    }
  }

  /** A bare key cannot straddle the start of a quoted key `"k":`. */
  lemma NoStraddleBeforeQuoted(w: string, x: string, k: string, y: string)
    requires IsKeyWord(w) && IsKeyWord(k)
    ensures NoStraddle(Bare(w), x, Quoted(k) + y)
  {
    var p, m := Bare(w), Quoted(k);
    var s := x + (m + y);
    var c := |x| + |k| + 2;  // the position of the colon of `"k":`
    assert forall j :: 0 <= j < |m| ==> s[|x| + j] == m[j];
    assert forall j :: 1 <= j <= |k| ==> m[j] == k[j - 1];
    assert m[0] == '"' && m[|k| + 1] == '"' && m[|k| + 2] == ':';
    forall i | 0 <= i < |x| < i + |p|
      ensures !OccursAt(p, s, i)
    {
      var e := i + |w|;  // where the window's colon falls
      if e < c {
        assert s[e] == '"' || s[e] in k;
        MismatchAt(p, s, i, |w|);
      } else if e == c {
        assert w[|w| - 1] in w;
        MismatchAt(p, s, i, |w| - 1);
      } else {
        assert w[c - i] in w;
        MismatchAt(p, s, i, c - i);
      }
    }
  }

  /** A bare key `w:` straddles the start of a bare key `k:` only when `k`
      is a proper suffix of `w`. */
  lemma StraddleBare(w: string, x: string, k: string, y: string, i: int)
    requires IsKeyWord(w) && IsKeyWord(k)
    requires 0 <= i < |x| < i + |Bare(w)|
    ensures OccursAt(Bare(w), x + (Bare(k) + y), i) ==> |k| < |w| && EndsWith(w, k)
  {
    var p, m := Bare(w), Bare(k);
    var s := x + (m + y);
    var c, e := |x| + |k|, i + |w|;
    assert forall j :: 0 <= j < |m| ==> s[|x| + j] == m[j];
    if e < c {
      assert s[e] == k[e - |x|] && k[e - |x|] in k;
      MismatchAt(p, s, i, |w|);
    } else if e > c {
      assert w[c - i] in w;
      MismatchAt(p, s, i, c - i);
    } else if OccursAt(p, s, i) {
      var d := |w| - |k|;
      forall j | 0 <= j < |k|
        ensures w[d + j] == k[j]
      {
        assert w[d + j] == p[d + j] == s[i..i + |p|][d + j] == s[|x| + j];
      }
      assert w[d..] == k;
    }
  }

  /** One link applied around a middle part: it works part by part when
      no occurrence straddles either split. */
  lemma QuoteKeyAround(a: string, m: string, b: string, w: string)
    requires IsKeyWord(w)
    requires NoStraddle(Bare(w), a, m + b) && NoStraddle(Bare(w), m, b)
    ensures QuoteKey(a + m + b, w) == QuoteKey(a, w) + QuoteKey(m, w) + QuoteKey(b, w)
  {
    assert a + m + b == a + (m + b);
    ReplaceSplit(a, m + b, Bare(w), Quoted(w));
    ReplaceSplit(m, b, Bare(w), Quoted(w));
  }

  /** A quoted key passes through every link unchanged, and the text on
      either side of it is processed on its own. */
  lemma {:induction false} QuoteKeysAroundQuoted(a: string, k: string, b: string, keys: seq<string>)
    requires AllKeyWords(keys) && IsKeyWord(k)
    ensures QuoteKeys(a + Quoted(k) + b, keys) == QuoteKeys(a, keys) + Quoted(k) + QuoteKeys(b, keys)
    decreases |keys|
  {
    if |keys| > 0 {
      var w := keys[0];
      NoStraddleBeforeQuoted(w, a, k, b);
      NoStraddleAfterColon(w, Quoted(k), b);
      QuoteKeyAround(a, Quoted(k), b, w);
      NoBareInQuoted(w, k);
      QuoteKeysAroundQuoted(QuoteKey(a, w), k, QuoteKey(b, w), keys[1..]);
    }
  }

  /** With a suffix-free key list, a bare key of the list inside any text
      comes out quoted, and the text on either side is processed on its
      own. */
  lemma {:induction false} QuoteKeysAroundBare(a: string, b: string, keys: seq<string>, j: int)
    requires AllKeyWords(keys) && SuffixFree(keys)
    requires 0 <= j < |keys|
    ensures QuoteKeys(a + Bare(keys[j]) + b, keys) == QuoteKeys(a, keys) + Quoted(keys[j]) + QuoteKeys(b, keys)
    decreases |keys|
  {
    var w, k := keys[0], keys[j];
    forall i | 0 <= i < |a| < i + |Bare(w)|
      ensures !OccursAt(Bare(w), a + (Bare(k) + b), i)
    {
      StraddleBare(w, a, k, b, i);
    }
    NoStraddleAfterColon(w, Bare(k), b);
    QuoteKeyAround(a, Bare(k), b, w);
    if j == 0 {
      QuoteKeyOnItself(k);
      QuoteKeysAroundQuoted(QuoteKey(a, k), k, QuoteKey(b, k), keys[1..]);
    } else {
      BareInBare(w, k);
      SuffixFreeTail(keys);
      assert keys[1..][j - 1] == k;
      QuoteKeysAroundBare(QuoteKey(a, w), QuoteKey(b, w), keys[1..], j - 1);
    }
  }

  /** Characters counted from the end agree between a text and its suffix. */
  lemma EndsWithChar(a: string, b: string, k: int)
    ensures EndsWith(a, b) && 0 < k <= |b| ==> a[|a| - k] == b[|b| - k]
  {
    if EndsWith(a, b) && 0 < k <= |b| {
      assert a[|a| - |b|..][|b| - k] == a[|a| - k];
    }
  }

  /** `b` is not a suffix of `a` when the two differ `k` characters from
      the end. */
  lemma NotEndsWith(a: string, b: string, k: int)
    requires 0 < k <= |a| && k <= |b|
    requires a[|a| - k] != b[|b| - k]
    ensures !EndsWith(a, b)
  {
    EndsWithChar(a, b, k);
  }

  /** No other key of the chain ends the key at position `i`. */
  lemma NoKeyEndsQuotedKey(i: int)
    requires 0 <= i < |QuotedKeys|
    ensures forall j :: 0 <= j < |QuotedKeys| && j != i ==> !EndsWith(QuotedKeys[i], QuotedKeys[j])
  {
    if i == 0 { NoKeyEndsKeyAt0(); }
    else if i == 1 { NoKeyEndsKeyAt1(); }
    else if i == 2 { NoKeyEndsKeyAt2(); }
    else if i == 3 { NoKeyEndsKeyAt3(); }
    else if i == 4 { NoKeyEndsKeyAt4(); }
    else { NoKeyEndsKeyAt5(); }
  }

  lemma NoKeyEndsKeyAt0()
    ensures forall j :: 0 <= j < |QuotedKeys| && j != 0 ==> !EndsWith(QuotedKeys[0], QuotedKeys[j])
  {
    var t, f, fa, r, k, v := "timeUnit", "fieldData", "fieldDataArray", "reportersData", "key", "value";
    NotEndsWith(t, f, 1); NotEndsWith(t, fa, 1); NotEndsWith(t, r, 1); NotEndsWith(t, k, 1); NotEndsWith(t, v, 1);
  }

  lemma NoKeyEndsKeyAt1()
    ensures forall j :: 0 <= j < |QuotedKeys| && j != 1 ==> !EndsWith(QuotedKeys[1], QuotedKeys[j])
  {
    var t, f, fa, r, k, v := "timeUnit", "fieldData", "fieldDataArray", "reportersData", "key", "value";
    // `fieldData` and `reportersData` first differ five characters from the end
    NotEndsWith(f, t, 1); NotEndsWith(f, r, 5); NotEndsWith(f, k, 1); NotEndsWith(f, v, 1);
  }

  lemma NoKeyEndsKeyAt2()
    ensures forall j :: 0 <= j < |QuotedKeys| && j != 2 ==> !EndsWith(QuotedKeys[2], QuotedKeys[j])
  {
    var t, f, fa, r, k, v := "timeUnit", "fieldData", "fieldDataArray", "reportersData", "key", "value";
    // `fieldDataArray` and `key` first differ two characters from the end
    NotEndsWith(fa, t, 1); NotEndsWith(fa, f, 1); NotEndsWith(fa, r, 1); NotEndsWith(fa, k, 2); NotEndsWith(fa, v, 1);
  }

  lemma NoKeyEndsKeyAt3()
    ensures forall j :: 0 <= j < |QuotedKeys| && j != 3 ==> !EndsWith(QuotedKeys[3], QuotedKeys[j])
  {
    var t, f, fa, r, k, v := "timeUnit", "fieldData", "fieldDataArray", "reportersData", "key", "value";
    NotEndsWith(r, t, 1); NotEndsWith(r, f, 5); NotEndsWith(r, fa, 1); NotEndsWith(r, k, 1); NotEndsWith(r, v, 1);
  }

  lemma NoKeyEndsKeyAt4()
    ensures forall j :: 0 <= j < |QuotedKeys| && j != 4 ==> !EndsWith(QuotedKeys[4], QuotedKeys[j])
  {
    var t, f, fa, r, k, v := "timeUnit", "fieldData", "fieldDataArray", "reportersData", "key", "value";
    NotEndsWith(k, t, 1); NotEndsWith(k, f, 1); NotEndsWith(k, r, 1); NotEndsWith(k, v, 1);
  }

  lemma NoKeyEndsKeyAt5()
    ensures forall j :: 0 <= j < |QuotedKeys| && j != 5 ==> !EndsWith(QuotedKeys[5], QuotedKeys[j])
  {
    var t, f, fa, r, k, v := "timeUnit", "fieldData", "fieldDataArray", "reportersData", "key", "value";
    NotEndsWith(v, t, 1); NotEndsWith(v, f, 1); NotEndsWith(v, fa, 1); NotEndsWith(v, r, 1); NotEndsWith(v, k, 1);
  }

  lemma QuotedKeysSuffixFree()
    ensures SuffixFree(QuotedKeys)
  {
    forall i | 0 <= i < |QuotedKeys|
      ensures forall j :: 0 <= j < |QuotedKeys| && j != i ==> !EndsWith(QuotedKeys[i], QuotedKeys[j])
    {
      NoKeyEndsQuotedKey(i);
    }
  }

  /** The `'` link leaves a bare key in place and works on either side of
      it separately. */
  lemma ApostropheLinkAround(a: string, k: string, b: string)
    requires IsKeyWord(k)
    ensures Replace(a + Bare(k) + b, "'", "\"")
         == Replace(a, "'", "\"") + Bare(k) + Replace(b, "'", "\"")
  {
    assert a + Bare(k) + b == a + (Bare(k) + b);
    ReplaceSplit(a, Bare(k) + b, "'", "\"");
    ReplaceSplit(Bare(k), b, "'", "\"");
    OccursSingle('\'', Bare(k));
    assert '\'' !in Bare(k);
  }

  /** Each of the six keys written bare anywhere in the response comes out
      quoted, and the text on either side is normalised on its own; in
      particular `fieldDataArray:` is not cut short by the `fieldData:`
      link. */
  lemma NormalizeTextQuotesEachKey(a: string, b: string, i: int)
    requires 0 <= i < |QuotedKeys|
    ensures NormalizeText(a + Bare(QuotedKeys[i]) + b)
         == NormalizeText(a) + Quoted(QuotedKeys[i]) + NormalizeText(b)
  {
    QuotedKeysAreKeyWords();
    QuotedKeysSuffixFree();
    var k := QuotedKeys[i];
    var ra, rb := Replace(a, "'", "\""), Replace(b, "'", "\"");
    ApostropheLinkAround(a, k, b);
    QuoteKeysAroundBare(ra, rb, QuotedKeys, i);
  }

  /** A key outside the six (a group label, say) stays bare unless one of
      the six is a suffix of it. */
  lemma NormalizeTextLeavesOtherKeys(w: string)
    requires IsKeyWord(w)
    requires forall i :: 0 <= i < |QuotedKeys| ==> !EndsWith(w, QuotedKeys[i])
    ensures NormalizeText(Bare(w)) == Bare(w)
  {
    QuotedKeysAreKeyWords();
    forall i | 0 <= i < |QuotedKeys|
      ensures !Occurs(Bare(QuotedKeys[i]), Bare(w))
    {
      BareInBare(QuotedKeys[i], w);
    }
    NormalizeTextFixedPoint(Bare(w));
  }

  /** The links match inside longer words too: after a normalised prefix
      such as `mon`, one of the six keys is quoted from where it starts. */
  lemma NormalizeTextQuotesKeyInWord(a: string, b: string, i: int)
    requires 0 <= i < |QuotedKeys|
    requires Normalized(a)
    ensures NormalizeText(a + Bare(QuotedKeys[i]) + b) == a + Quoted(QuotedKeys[i]) + NormalizeText(b)
  {
    NormalizeTextFixedPoint(a);
    NormalizeTextQuotesEachKey(a, b, i);
  }

  /** `mon` holds no `'` and is too short to hold a bare key. */
  lemma MonNormalized()
    ensures Normalized("mon")
  {
    forall i | 0 <= i < |QuotedKeys|
      ensures !Occurs(Bare(QuotedKeys[i]), "mon")
    {
      ShortNotOccurs(Bare(QuotedKeys[i]), "mon");
    }
  }

  /** `monkey:` becomes `mon"key":`. */
  lemma NormalizeTextQuotesMonkey(b: string)
    ensures NormalizeText("mon" + Bare("key") + b) == "mon" + Quoted("key") + NormalizeText(b)
  {
    MonNormalized();
    assert QuotedKeys[4] == "key";
    NormalizeTextQuotesKeyInWord("mon", b, 4);
  }


}

=== FILE: text.dfy ===
/** Strings as sequences of characters: substring occurrence and a model
    of Python's `str.replace`, with the facts the response normaliser
    relies on. */
module Text {

  /** `s` begins with `p`. */
  predicate StartsWith(s: string, p: string) {
    |p| <= |s| && s[..|p|] == p
  }

  /** `p` occurs in `s` as a contiguous substring. */
  predicate Occurs(p: string, s: string)
    decreases |s|
  {
    StartsWith(s, p) || (|s| > 0 && Occurs(p, s[1..]))
  }

  /** Python's `s.replace(p, r)` for a non-empty pattern: scanning from the
      left, every occurrence of `p` that does not overlap an earlier
      replaced one becomes `r`. */
  function Replace(s: string, p: string, r: string): (t: string)
    requires |p| > 0
    ensures !Occurs(p, s) ==> t == s
    decreases |s|
  {
    if |s| < |p| then s
    else if s[..|p|] == p then r + Replace(s[|p|..], p, r)
    else
      assert s == [s[0]] + s[1..];
      [s[0]] + Replace(s[1..], p, r)
  }

  /** `s` with every character of `cs` removed. */
  function Erase(s: string, cs: set<char>): (t: string)
    ensures forall c :: c in t ==> c in s && c !in cs
    ensures forall c :: c in s && c !in cs ==> c in t
  {
    if |s| == 0 then []
    else if s[0] in cs then Erase(s[1..], cs)
    else [s[0]] + Erase(s[1..], cs)
  }

  /** `p` occurs in `s` starting at index `i`. */
  predicate OccursAt(p: string, s: string, i: int) {
    0 <= i && i + |p| <= |s| && s[i..i + |p|] == p
  }

  /** The recursive definition of `Occurs` agrees with the index-based one. */
  lemma {:induction false} OccursIffAtIndex(p: string, s: string)
    ensures Occurs(p, s) <==> exists i :: OccursAt(p, s, i)
    decreases |s|
  {
    if StartsWith(s, p) {
      assert OccursAt(p, s, 0);
    } else if |s| == 0 {
    } else {
      OccursIffAtIndex(p, s[1..]);
      if exists i :: OccursAt(p, s, i) {
        var i :| OccursAt(p, s, i);
        assert i != 0;
        assert s[1..][i - 1..i - 1 + |p|] == s[i..i + |p|];
        assert OccursAt(p, s[1..], i - 1);
      }
      if Occurs(p, s[1..]) {
        var i :| OccursAt(p, s[1..], i);
        assert s[i + 1..i + 1 + |p|] == s[1..][i..i + |p|];
        assert OccursAt(p, s, i + 1);
      }
    }
  }

  /** A one-character pattern occurs exactly when the character is present. */
  lemma {:induction false} OccursSingle(c: char, s: string)
    ensures Occurs([c], s) <==> c in s
    decreases |s|
  {
    if |s| > 0 {
      OccursSingle(c, s[1..]);
      assert s == [s[0]] + s[1..];
      assert StartsWith(s, [c]) <==> s[0] == c;
    }
  }

  /** A text shorter than the pattern cannot contain it. */
  lemma {:induction false} ShortNotOccurs(p: string, s: string)
    requires |s| < |p|
    ensures !Occurs(p, s)
    decreases |s|
  {
    if |s| > 0 {
      ShortNotOccurs(p, s[1..]);
    }
  }

  /** Absence of a pattern is inherited by every suffix. */
  lemma {:induction false} NotOccursSuffix(p: string, s: string, k: nat)
    requires k <= |s|
    requires !Occurs(p, s)
    ensures !Occurs(p, s[k..])
    decreases k
  {
    if k > 0 {
      NotOccursSuffix(p, s[1..], k - 1);
      assert s[1..][k - 1..] == s[k..];
    }
  }

  /** `p` does not occur in `a + t` when it does not occur in `t` and no
      occurrence can start inside `a`. */
  lemma {:induction false} NotOccursPrepend(p: string, a: string, t: string)
    requires !Occurs(p, t)
    requires forall i :: 0 <= i < |a| ==> !StartsWith(a[i..] + t, p)
    ensures !Occurs(p, a + t)
    decreases |a|
  {
    if |a| == 0 {
      assert a + t == t;
    } else {
      assert a[0..] == a;
      forall i | 0 <= i < |a[1..]|
        ensures !StartsWith(a[1..][i..] + t, p)
      {
        assert a[1..][i..] == a[i + 1..];
      }
      NotOccursPrepend(p, a[1..], t);
      assert (a + t)[1..] == a[1..] + t;
    }
  }

  /** A character found neither in the text nor in the replacement is not
      in the result. */
  lemma {:induction false} ReplaceKeepsOut(s: string, p: string, r: string, c: char)
    requires |p| > 0
    requires c !in s && c !in r
    ensures c !in Replace(s, p, r)
    decreases |s|
  {
    if |s| < |p| {
    } else if s[..|p|] == p {
      ReplaceKeepsOut(s[|p|..], p, r, c);
    } else {
      ReplaceKeepsOut(s[1..], p, r, c);
    }
  }

  /** Replacing a single character by text without it removes it entirely. */
  lemma {:induction false} ReplaceRemovesChar(s: string, c: char, r: string)
    requires c !in r
    ensures c !in Replace(s, [c], r)
    decreases |s|
  {
    if |s| >= 1 {
      assert s[..1] == [s[0]];
      ReplaceRemovesChar(s[1..], c, r);
    }
  }

  /** Erasing distributes over concatenation. */
  lemma {:induction false} EraseConcat(a: string, b: string, cs: set<char>)
    ensures Erase(a + b, cs) == Erase(a, cs) + Erase(b, cs)
    decreases |a|
  {
    if |a| > 0 {
      assert (a + b)[1..] == a[1..] + b;
      EraseConcat(a[1..], b, cs);
    } else {
      assert a + b == b;
    }
  }

  /** Erasing one set and then another is erasing both at once. */
  lemma {:induction false} EraseErase(s: string, a: set<char>, b: set<char>)
    ensures Erase(Erase(s, a), b) == Erase(s, a + b)
    decreases |s|
  {
    if |s| > 0 {
      EraseErase(s[1..], a, b);
      if s[0] !in a {
        assert ([s[0]] + Erase(s[1..], a))[1..] == Erase(s[1..], a);
      }
    }
  }

  /** A replacement that differs from its pattern only in erased characters
      leaves the erased view of the text unchanged. */
  lemma {:induction false} EraseReplace(s: string, p: string, r: string, cs: set<char>)
    requires |p| > 0
    requires Erase(p, cs) == Erase(r, cs)
    ensures Erase(Replace(s, p, r), cs) == Erase(s, cs)
    decreases |s|
  {
    if |s| < |p| {
    } else if s[..|p|] == p {
      EraseReplace(s[|p|..], p, r, cs);
      EraseConcat(r, Replace(s[|p|..], p, r), cs);
      assert s == s[..|p|] + s[|p|..];
      EraseConcat(s[..|p|], s[|p|..], cs);
    } else {
      EraseReplace(s[1..], p, r, cs);
      EraseConcat([s[0]], Replace(s[1..], p, r), cs);
      assert s == [s[0]] + s[1..];
      EraseConcat([s[0]], s[1..], cs);
    }
  }

  /** `p` does not occur at `i` when it disagrees with the text at offset `j`. */
  lemma MismatchAt(p: string, s: string, i: int, j: int)
    requires 0 <= i && 0 <= j < |p| && i + j < |s|
    requires s[i + j] != p[j]
    ensures !OccursAt(p, s, i)
  {
    if i + |p| <= |s| {
      assert s[i..i + |p|][j] == s[i + j];
    }
  }

  /** No occurrence of `p` in `x + y` starts inside `x` and ends inside `y`. */
  predicate NoStraddle(p: string, x: string, y: string) {
    forall i :: 0 <= i < |x| < i + |p| ==> !OccursAt(p, x + y, i)
  }

  /** Dropping a prefix of the left part keeps a split straddle-free. */
  lemma NoStraddleDrop(p: string, x: string, y: string, k: nat)
    requires k <= |x|
    requires NoStraddle(p, x, y)
    ensures NoStraddle(p, x[k..], y)
  {
    var s := x + y;
    assert x[k..] + y == s[k..];
    forall i | 0 <= i < |x[k..]| < i + |p|
      ensures !OccursAt(p, x[k..] + y, i)
    {
      assert !OccursAt(p, s, i + k);
      if i + |p| <= |s[k..]| {
        assert s[k..][i..i + |p|] == s[i + k..i + k + |p|];
      }
    }
  }

  /** One step of `ReplaceSplit`: an occurrence at the very start of `x`. */
  lemma ReplaceStepMatch(x: string, y: string, p: string, r: string)
    requires |p| > 0 && |p| <= |x| && x[..|p|] == p
    requires Replace(x[|p|..] + y, p, r) == Replace(x[|p|..], p, r) + Replace(y, p, r)
    ensures Replace(x + y, p, r) == Replace(x, p, r) + Replace(y, p, r)
  {
    var s := x + y;
    assert s[..|p|] == p;
    assert s[|p|..] == x[|p|..] + y;
  }

  /** Without an occurrence at its start, `str.replace` copies the first
      character. */
  lemma ReplaceHeadSkip(s: string, p: string, r: string)
    requires 0 < |p| <= |s| && s[..|p|] != p
    ensures Replace(s, p, r) == [s[0]] + Replace(s[1..], p, r)
  {
  }

  /** A non-empty text shorter than the pattern is copied character by
      character. */
  lemma ReplaceShortHead(s: string, p: string, r: string)
    requires 0 < |s| < |p|
    ensures Replace(s, p, r) == [s[0]] + Replace(s[1..], p, r)
  {
    assert s == [s[0]] + s[1..];
  }

  /** The first character and the rest of `x + y` for a non-empty `x`. */
  lemma ConcatHead(x: string, y: string)
    requires |x| > 0
    ensures (x + y)[0] == x[0] && (x + y)[1..] == x[1..] + y
  {
  }

  /** No occurrence at the start of `x + y` when none is at the start of
      `x` and none straddles from index 0. */
  lemma NoMatchAtStart(x: string, y: string, p: string)
    requires |p| > 0 && |p| <= |x + y|
    requires |p| <= |x| ==> x[..|p|] != p
    requires |x| < |p| ==> !OccursAt(p, x + y, 0)
    ensures (x + y)[..|p|] != p
  {
    if |p| <= |x| {
      assert (x + y)[..|p|] == x[..|p|];
    }
  }

  lemma ConcatAssoc(a: string, b: string, c: string)
    ensures a + (b + c) == (a + b) + c
  {
  }

  /** One step of `ReplaceSplit`: no occurrence at the start of `x`, whose
      first character is copied. */
  lemma ReplaceStepSkip(x: string, y: string, p: string, r: string)
    requires |p| > 0 && 0 < |x| && |p| <= |x + y|
    requires |p| <= |x| ==> x[..|p|] != p
    requires |x| < |p| ==> !OccursAt(p, x + y, 0)
    requires Replace(x[1..] + y, p, r) == Replace(x[1..], p, r) + Replace(y, p, r)
    ensures Replace(x + y, p, r) == Replace(x, p, r) + Replace(y, p, r)
  {
    NoMatchAtStart(x, y, p);
    ReplaceHeadSkip(x + y, p, r);
    ConcatHead(x, y);
    if |x| < |p| {
      ReplaceShortHead(x, p, r);
    } else {
      ReplaceHeadSkip(x, p, r);
    }
    ConcatAssoc([x[0]], Replace(x[1..], p, r), Replace(y, p, r));
  }

  /** `str.replace` works part by part when no occurrence of the pattern
      straddles the split. */
  lemma {:induction false} ReplaceSplit(x: string, y: string, p: string, r: string)
    requires |p| > 0
    requires NoStraddle(p, x, y)
    ensures Replace(x + y, p, r) == Replace(x, p, r) + Replace(y, p, r)
    decreases |x|
  {
    if |x| == 0 {
      assert x + y == y;
    } else if |x + y| < |p| {
    } else if |p| <= |x| && x[..|p|] == p {
      NoStraddleDrop(p, x, y, |p|);
      ReplaceSplit(x[|p|..], y, p, r);
      ReplaceStepMatch(x, y, p, r);
    } else {
      NoStraddleDrop(p, x, y, 1);
      ReplaceSplit(x[1..], y, p, r);
      ReplaceStepSkip(x, y, p, r);
    }
  }

  /** The first character of a non-empty prefix is the first character of
      the text. */
  lemma FirstOfPrefix(s: string, q: string)
    ensures StartsWith(s, q) && |q| > 0 ==> s[0] == q[0] && s[0] in q
  {
  }

  /** When the replacement starts with `"`, a prefix free of `"` in the
      result was already a prefix of the original text. */
  lemma {:induction false} PrefixThroughReplace(t: string, p: string, r: string, q: string)
    requires |p| > 0 && |r| > 0 && r[0] == '"'
    requires '"' !in q
    requires StartsWith(Replace(t, p, r), q)
    ensures StartsWith(t, q)
    decreases |t|
  {
    if |t| < |p| || |q| == 0 {
    } else if t[..|p|] == p {
      // the result starts with `"`, which `q` does not contain
      FirstOfPrefix(Replace(t, p, r), q);
      assert false;
    } else {
      var x := Replace(t[1..], p, r);
      assert Replace(t, p, r) == [t[0]] + x;
      assert StartsWith(x, q[1..]) by {
        assert ([t[0]] + x)[..|q|] == q;
        assert forall k :: 0 <= k < |q| - 1 ==> x[k] == ([t[0]] + x)[k + 1];
      }
      PrefixThroughReplace(t[1..], p, r, q[1..]);
      assert q[0] == ([t[0]] + x)[0];
      PrefixCons(t, q);
    }
  }

  /** A prefix agrees with the text on the first character and on the rest. */
  lemma PrefixCons(t: string, q: string)
    requires |t| > 0 && |q| > 0 && t[0] == q[0]
    requires StartsWith(t[1..], q[1..])
    ensures StartsWith(t, q)
  {
    forall k | 0 <= k < |q|
      ensures t[k] == q[k]
    {
      if k > 0 {
        assert t[k] == t[1..][..|q| - 1][k - 1] && q[k] == q[1..][k - 1];
      }
    }
  }
}

=== FILE: wrappers.dfy ===
/** Failure-carrying values used throughout the model: an optional value
    (a cookie that may be missing) and a result that is either a value or
    the error the client would raise. */
module Wrappers {

  datatype Option<+T> = None | Some(value: T)

  datatype Result<+T, +E> = Success(value: T) | Failure(error: E)
}
